=== FILE: README.md ===
# agp-tweeter: announce-once checker and store migrations

This project models the core of agp-tweeter. agp-tweeter polls the Android
Gradle plugin's Maven group index and tweets once for each version it has not
announced yet. The model covers four pieces:

- **The check-and-tweet engine** (`checkAndTweet`). It compares the remote
  version set first with a cheap cache store and then with a durable db
  store. When only the db knows everything, it repairs the cache. Otherwise it
  tweets one message per version missing from the db, then overwrites both
  stores with the remote set.
- **The schema migrator of the store revision** (`store/migrate.kt`). A
  decimal schema marker (`db_version`) and a comma-joined manifest of record
  keys (`db_keys`) drive single-step upgrades: 0→1 does nothing, and 1→2
  rewrites every listed record with an empty `pending` list. The
  `MigratedStore` wrapper adds every key it writes to the manifest.
- **The earlier migrator** (`migrate.kt`). It has the same marker and a
  single no-op step up to version 1.
- **The original single-file checker** (`agp-tweeter.kt`). It splits seen
  and fetched versions, fills the `__VERSION__` placeholder of a message
  template, and persists seen ∪ new.

The checker and the two migrators run against `MemStore`, the in-memory
semantics of the `Store` contract: a finite map, read and written one key at
a time, with keys restricted to `A-Za-z0-9-_`. The single-file checker has no
store: it keeps the versions it has seen in a db file, modelled as the set of
its lines, or `None` when the file does not exist.

Each source file is its own module. The files come from different revisions
of the repository, so each one is modelled against its own store:

| module | models |
|---|---|
| `KvStore` (kv_store.dfy) | `Store`/`MemStore`, plus a `Journal` that logs the writes |
| `Checker` (checker.dfy) | checker.kt |
| `Tweets` (tweets.dfy) | posting messages in order until the transport throws |
| `SchemaMigration` (schema_migration.dfy) | store/migrate.kt |
| `LegacyMigration` (legacy_migration.dfy) | migrate.kt |
| `SingleFileTweeter` (single_file_tweeter.dfy) | agp-tweeter.kt |
| `Decimal`, `Text`, `Seqs`, `Wrappers` | `Integer.parseInt`/`toString` and 32-bit `Int`; `split`, `joinToString` and `replace`; order-keeping sets and `filterNot`; `Option` |

Modelling choices:

- **Exceptions.** A thrown exception is a failure value returned together
  with the state reached so far. Nothing in the source is transactional: a
  migration that throws halfway keeps the writes it already made.
- **Observing writes.** The migrators return a `Journal`: the store plus the
  ordered log of `write` calls. This makes "performs no writes" a statement
  about the log being empty.
- **Effects of `checkAndTweet`.** The run produces an ordered trace of
  effects: cache read, db read, tweet, cache store, db store.
- **The tweet transport.** Posting throws exactly for the messages in a
  given set.
- **Set order.** The iteration order of Kotlin's set is a duplicate-free
  sequence given as input.
- **The marker.** It is stored as the decimal text of a Java `Int`.
  Parsing accepts an optional sign and ASCII digits within the 32-bit range.
- **Marker arithmetic in migrate.kt.** There are two readings of
  `store.version + 1` (migrate.kt:13):
  - `LegacyMigration.MigrateAsWritten` is the code as written. It uses
    32-bit `Int` addition, which wraps around.
  - `LegacyMigration.Migrate` is the corrected reading. It adds without
    wrap-around.

  The two agree on every marker except `Int.MAX_VALUE`
  (`LegacyMigration.MigrateAsWrittenAgrees`; see "## Findings"). The lemmas
  about the earlier migrator's steps are stated for the corrected `Migrate`.
- **The cache on a db hit.** When the db already has every remote version,
  checker.kt stores the remote set in the cache (checker.kt:26).
- **Pending versions.** store/migrate.kt defines only the `PendingVersion2`
  record shape (store/migrate.kt:71-72). No code decides when a pending
  version is announced, so the model has only the record shape.

## Model

| member | source | states |
|---|---|---|
| KvStore.ReadUnwritten | src/main/java/pink/madis/agptweeter/stores.kt:28-31 | a newly built `MemStore` reads `null` at every valid key |
| KvStore.ReadAfterWrite | src/main/java/pink/madis/agptweeter/stores.kt:31-35 | reading a key returns what was last written there |
| KvStore.WriteOverwrites | src/main/java/pink/madis/agptweeter/stores.kt:33-35 | a second write to a key replaces the first |
| KvStore.WriteIsolated | src/main/java/pink/madis/agptweeter/stores.kt:33-35 | writing one key leaves every other key's read unchanged |
| Checker.IsNewRemoteVersion | src/main/java/pink/madis/agptweeter/checker.kt:5-7 | true exactly when some remote version is missing from the local set |
| Checker.NothingRemoteIsNotNew | src/main/java/pink/madis/agptweeter/checker.kt:5-7 | an empty remote set is never new |
| Checker.IsNewRemoteVersionAntitone | src/main/java/pink/madis/agptweeter/checker.kt:5-7 | enlarging the local set can only turn "new" into "not new" |
| Checker.TweetText | src/main/java/pink/madis/agptweeter/checker.kt:33-37 | a tweet begins with `"<name> <version> is out!"`. It is exactly that text when the version has no release notes, and otherwise that text followed by a space and the notes |
| Checker.AnnouncedVersionOfHeadline | src/main/java/pink/madis/agptweeter/checker.kt:34 | the version can be read back unambiguously from the middle of the headline |
| Checker.TweetTextNamesVersion | src/main/java/pink/madis/agptweeter/checker.kt:33-37 | a tweet without release notes names its version unambiguously |
| Tweets.Deliver | src/main/java/pink/madis/agptweeter/checker.kt:32-40 | posting in order stops at the first message the transport rejects. Nothing throws exactly when no message is rejected, and then every message is posted in order. Otherwise the posted messages plus the rejected one form a prefix of the list, and no posted message was rejected |
| Checker.CheckAndTweet | src/main/java/pink/madis/agptweeter/checker.kt:9-45 | `null` from the fetcher throws `IOException("Did not get a proper remote version")` with no effect. If the cache covers the remote set, only the cache is read. If only the db covers it, the cache is overwritten with the remote set and nothing is tweeted or written to the db. Stores are written only after the last tweet. A failed run leaves both stores as they were. An `IOException` arises only from a `null` fetch, and the only other exception is the transport's, naming a rejected message |
| Checker.TweetingRun | src/main/java/pink/madis/agptweeter/checker.kt:30-44 | when both cache and db are behind, the planned tweets are one per version missing from the db and none for known versions. The run returns normally exactly when none of those tweets is rejected. Then the tweets posted are exactly the planned ones. The cache and then the db are stored last. Each store changes only at the artifact's key, which holds exactly the remote set (not a union with its old content). No posted tweet was rejected. When a tweet is rejected, the planned tweets before it were posted, the exception is the transport's and names that first rejected tweet, and neither store is written |
| Checker.QuietAfterSuccess | src/main/java/pink/madis/agptweeter/checker.kt:17-20 | after a run that returns normally, checking the same remote versions again reads only the cache and tweets nothing |
| SchemaMigration.MarkerDefault | src/main/java/pink/madis/agptweeter/store/migrate.kt:10-11 | a store without `db_version` is at schema version 1 |
| SchemaMigration.Keys | src/main/java/pink/madis/agptweeter/store/migrate.kt:14-16 | the manifest getter yields each key once and never an empty collection. With a stored manifest it yields exactly the comma-separated parts. Without one it yields exactly the configured artifact keys plus `"key"` |
| SchemaMigration.ManifestRoundTrip | src/main/java/pink/madis/agptweeter/store/migrate.kt:14-17 | valid keys joined with commas and split again give back the same non-empty keys in the same order |
| SchemaMigration.KeysAfterSetKeys | src/main/java/pink/madis/agptweeter/store/migrate.kt:14-17 | after the manifest setter, the getter returns exactly the keys that were set |
| Decimal.ParseIntToString | src/main/java/pink/madis/agptweeter/store/migrate.kt:10-12 | the marker setter's decimal text reads back through `Integer.parseInt` as the same `Int` |
| SchemaMigration.MigrateCurrentWritesNothing | src/main/java/pink/madis/agptweeter/store/migrate.kt:21-34 | a store at schema version 2 or beyond is migrated without a single write, whatever its manifest holds |
| SchemaMigration.MigrateNegativeFails | src/main/java/pink/madis/agptweeter/store/migrate.kt:30-56 | a negative marker has no upgrade step: `IllegalStateException` before any write and before any listed record is read |
| SchemaMigration.RewriteRecordsSpec | src/main/java/pink/madis/agptweeter/store/migrate.kt:48-54 | the 1→2 rewrite fails exactly when a listed key holds a record that does not decode, and names that key. On success every listed record holds its versions with an empty pending list. Whether it fails or not, each listed record is either as it was or upgraded from a decodable record, never anything else. Unlisted keys and listed keys without a value are never touched |
| SchemaMigration.RewriteRecordsKeepsOrUpgrades | src/main/java/pink/madis/agptweeter/store/migrate.kt:50-54 | each listed record the rewrite leaves, on success or on failure, is the one it found or that record upgraded to version 2 from a decodable version 1 record |
| SchemaMigration.MigrateFromOldFrom | src/main/java/pink/madis/agptweeter/store/migrate.kt:28-34 | migrating from version 0 or 1 reaches exactly the store its logged writes produce |
| SchemaMigration.MigrateFromOldFailure | src/main/java/pink/madis/agptweeter/store/migrate.kt:40-57 | the only failure a migration from version 0 or 1 can meet is an undecodable record at a listed key |
| SchemaMigration.MigrateFromOldUntouched | src/main/java/pink/madis/agptweeter/store/migrate.kt:50-54 | whether it fails or not, a migration from version 0 or 1 leaves unlisted keys, and listed keys without a value, exactly as they were. Every other non-reserved record is either as it was or upgraded from a decodable version 1 record, so a migration that throws corrupts no record |
| SchemaMigration.MigrateFromOldSucceeds | src/main/java/pink/madis/agptweeter/store/migrate.kt:28-58 | a successful migration from version 0 or 1 leaves the marker at 2 and a non-empty manifest listing the keys it used, even for an empty store |
| SchemaMigration.MigrateFromOldRewrites | src/main/java/pink/madis/agptweeter/store/migrate.kt:44-55 | after a successful migration every listed record that had a value holds the same versions and an empty pending list |
| SchemaMigration.MigrateFromOldSucceedsIff | src/main/java/pink/madis/agptweeter/store/migrate.kt:50-54 | when no listed key is reserved, the migration succeeds exactly when every listed value decodes as a version 1 record |
| SchemaMigration.MigrateTwiceWritesNothing | src/main/java/pink/madis/agptweeter/store/migrate.kt:19-35 | a successful migration leaves a marker of 2 or more, and migrating its result again writes nothing |
| SchemaMigration.MigratedWriteSpec | src/main/java/pink/madis/agptweeter/store/migrate.kt:61-67 | writing `db_keys` is one plain write. Writing any other key stores the value and changes no other key except the manifest |
| SchemaMigration.MigratedWriteManifest | src/main/java/pink/madis/agptweeter/store/migrate.kt:61-67 | after writing a key other than `db_keys`, the manifest lists the old keys and the new one, each once, all valid |
| Seqs.Dedup | src/main/java/pink/madis/agptweeter/store/migrate.kt:16 | `toSet` keeps each element once and loses none |
| Seqs.DedupPrefix | src/main/java/pink/madis/agptweeter/store/migrate.kt:16 | deduplicating a prefix gives a prefix of the result. So `toSet`, and `Set + element` at line 65, keep elements in the order of their first occurrences |
| Text.SplitJoin | src/main/java/pink/madis/agptweeter/store/migrate.kt:16-17 | splitting comma-free parts joined by commas gives the parts back |
| LegacyMigration.MarkerDefault | src/main/java/pink/madis/agptweeter/migrate.kt:7-8 | a store without `db_version` is at version 1 |
| LegacyMigration.UpgradeTo | src/main/java/pink/madis/agptweeter/migrate.kt:22-29 | a step succeeds exactly when its target is 1, and then writes only the marker. Any other target throws before writing |
| LegacyMigration.UpgradeToSetsMarker | src/main/java/pink/madis/agptweeter/migrate.kt:22-28 | after a successful step the marker reads back as the step's target |
| LegacyMigration.MigrateCurrentWritesNothing | src/main/java/pink/madis/agptweeter/migrate.kt:11-17 | a marker of 1 or more runs no step and writes nothing (stated for the corrected `Migrate`, which agrees with the code except at `Int.MAX_VALUE`) |
| LegacyMigration.MigrateFromZero | src/main/java/pink/madis/agptweeter/migrate.kt:11-28 | a marker of 0 runs the no-op step and writes exactly the marker `"1"` (stated for the corrected `Migrate`, which agrees with the code except at `Int.MAX_VALUE`) |
| LegacyMigration.MigrateNegativeFails | src/main/java/pink/madis/agptweeter/migrate.kt:13-26 | a negative marker makes the first step target a version other than 1, which throws before any write (stated for the corrected `Migrate`, which agrees with the code except at `Int.MAX_VALUE`) |
| LegacyMigration.MigrateAsWrittenAgrees | src/main/java/pink/madis/agptweeter/migrate.kt:13 | the wrap-around reading and the corrected one agree on every marker except `Int.MAX_VALUE` |
| LegacyMigration.MigrateAsWrittenOverflows | src/main/java/pink/madis/agptweeter/migrate.kt:13 | with marker `Int.MAX_VALUE`, the code as written steps to `Int.MIN_VALUE` and throws, where no step is needed |
| LegacyMigration.MaxMarkerStore | src/main/java/pink/madis/agptweeter/migrate.kt:7-9 | a store holding `"2147483647"` as marker reads as `Int.MAX_VALUE` |
| SingleFileTweeter.FetchVersions | src/main/java/agp-tweeter.kt:42-47 | the fetched versions are comma-free, at least one, and joined with commas give back the attribute |
| SingleFileTweeter.Check | src/main/java/agp-tweeter.kt:17-33 | nothing is new exactly when every fetched version was seen, and then nothing is tweeted or written. The tweets are a prefix of one message per new version in fetch order. The run throws exactly when one of those messages is rejected by the transport, and the exception names it. When nothing throws, all messages are tweeted. The db file is written exactly when tweeting finished and something was new, with seen ∪ fetched |
| SingleFileTweeter.MissingDbAllNew | src/main/java/agp-tweeter.kt:20-22 | without a db file every fetched version is new |
| SingleFileTweeter.QuietAfterWrite | src/main/java/agp-tweeter.kt:20-32 | after the db file is written, the next check with the same versions tweets and writes nothing |
| SingleFileTweeter.TweetsFillTemplate | src/main/java/agp-tweeter.kt:29-31 | for a template holding the placeholder once, each tweet is the template with that version in place of the placeholder |
| Text.ReplaceAllUnchangedIff | src/main/java/agp-tweeter.kt:30 | `replace` leaves a message unchanged exactly when the placeholder does not occur or is replaced by itself |

## Left out

- `FileStore` and `DynamoStore` (stores.kt:41-67): filesystem and AWS I/O. Only the map semantics shared with `MemStore` is modelled.
- `IOException` from a store's `read` or `write`: the modelled stores are total maps and never throw.
- fetchers.kt, the `Version` ordering class, configs.kt, data.kt, main.kt's Lambda handler, the `Main` loop of agp-tweeter.kt and `tweet`/twitter4j: these are hosting, environment and network plumbing. Fetch results and transport failures are inputs instead.
- The XML download and XPath query in `fetchVersions` (agp-tweeter.kt:43-45): only the comma split is modelled.
- `println` logging everywhere: it has no effect on state.
- Moshi JSON: records are kept as structured documents. Decoding an encoded record gives it back by construction, and JSON text is never parsed. A record read as a plain string (a marker or manifest that holds JSON) renders as JSON text without string escaping.
- The byte encoding of a `VersionsStore` record is not part of this model. A missing record reads as the empty set.
- The db file of agp-tweeter.kt is read as a set of lines and written as a set: line order and duplicate lines are not modelled.
- SingleFileTweeter.QuietAfterWrite: assumes the written set reads back as the same lines. A version containing '\n' or '\r' is written as one entry but split into several lines by `Files.lines` (agp-tweeter.kt:20,32), so it would be tweeted again; that case is not modelled.
- Decimal.ParseInt: accepts only ASCII digits, although `Integer.parseInt` also accepts other Unicode decimal digits.
- SchemaMigration.Migrate: from marker 0 or 1, requires every manifest key to be a valid store key. Step 1 -> 2 reads each of those keys, and the `Store` contract admits only valid keys (stores.kt:15,20). For example, an empty stored manifest splits to the empty key, so a store at marker 0 or 1 with that manifest falls outside the model. Other markers never read the keys the manifest lists and need nothing (the manifest itself is read at store/migrate.kt:28 for every marker except 2).
- Seqs.Without: the contract states which elements are kept, not that they stay in their original order, although the definition keeps it.
- Tweets.Deliver: the transport fails by message content. A transport that fails on the n-th call regardless of content is not modelled.

## Findings

| source | as written | input that shows it | evidently intended | confidence | as-written member | corrected member |
|---|---|---|---|---|---|---|
| src/main/java/pink/madis/agptweeter/migrate.kt:13 | the first step is `store.version + 1` in 32-bit `Int` arithmetic, which wraps to `Int.MIN_VALUE` | stored marker `"2147483647"` | a marker at or past the current version needs no step and writes nothing | low, not executed | LegacyMigration.MigrateAsWrittenOverflows | LegacyMigration.Migrate |

The as-written reading is `LegacyMigration.MigrateAsWritten`. On that marker it
tries a step to `Int.MIN_VALUE`, which throws `IllegalStateException`. The
corrected `LegacyMigration.Migrate` computes the first step without
wrap-around. `LegacyMigration.MigrateCurrentWritesNothing` proves that every
marker of 1 or more migrates without a write. `LegacyMigration.MaxMarkerStore`
shows that such a store exists.

=== FILE: checker.dfy ===
/** checker.kt: announce each remote version the first time it is seen,
    consulting a cheap cache before the durable database. */
module Checker {
  import opened Wrappers
  import opened Seqs
  import opened KvStore
  import opened Tweets

  /** Message of the `IOException` thrown when the fetcher returns `null`. */
  const NoRemoteVersion := "Did not get a proper remote version"

  /** What the check reads from an `ArtifactSource`: its store key, the name
      used in tweets and the release notes it knows for each version. */
  datatype ArtifactSource = ArtifactSource(key: string, prettyName: string, releaseNotes: map<string, string>)

  /** A `VersionsStore`: the set of versions recorded per artifact key. */
  type VersionsStore = Store<set<string>>

  /** `versions(key)`: the recorded set, empty when nothing is recorded. */
  function StoredVersions(s: VersionsStore, key: string): set<string>
    requires ValidKey(key)
  {
    Read(s, key).GetOr({})
  }

  /** True iff some remote version is missing from the local set. */
  function IsNewRemoteVersion(remote: set<string>, local: set<string>): (r: bool)
    ensures r <==> exists v :: v in remote && v !in local
  {
    !(remote <= local)
  }

  /** No remote versions means nothing new. */
  lemma NothingRemoteIsNotNew(local: set<string>)
    ensures !IsNewRemoteVersion({}, local)
  {
  }

  /** Knowing more locally can only turn "new" into "not new". */
  lemma IsNewRemoteVersionAntitone(remote: set<string>, local: set<string>, larger: set<string>)
    requires local <= larger
    ensures IsNewRemoteVersion(remote, larger) ==> IsNewRemoteVersion(remote, local)
  {
  }

  const OutSuffix := " is out!"

  /** The fixed part of a tweet: `"$prettyName $version is out!"`. */
  function Headline(src: ArtifactSource, version: string): string {
    src.prettyName + " " + version + OutSuffix
  }

  /** The version a headline announces, read back from its middle. */
  function AnnouncedVersion(src: ArtifactSource, headline: string): Option<string> {
    if |headline| >= |src.prettyName| + 1 + |OutSuffix|
       && headline[..|src.prettyName| + 1] == src.prettyName + " "
       && headline[|headline| - |OutSuffix|..] == OutSuffix
    then Some(headline[|src.prettyName| + 1..|headline| - |OutSuffix|])
    else None
  }

  /** A headline names its version unambiguously. */
  lemma AnnouncedVersionOfHeadline(src: ArtifactSource, version: string)
    ensures AnnouncedVersion(src, Headline(src, version)) == Some(version)
  {
    var h := Headline(src, version);
    assert h[..|src.prettyName| + 1] == src.prettyName + " ";
    assert h[|h| - |OutSuffix|..] == OutSuffix;
    assert h[|src.prettyName| + 1..|h| - |OutSuffix|] == version;
  }

  /** The tweet for one version: the headline, followed by a space and the
      release notes when the source has notes for that version. */
  function TweetText(src: ArtifactSource, version: string): (t: string)
    ensures Headline(src, version) <= t
    ensures t == Headline(src, version) <==> version !in src.releaseNotes
    ensures version in src.releaseNotes ==> t[|Headline(src, version)|..] == " " + src.releaseNotes[version]
  {
    Headline(src, version) + (if version in src.releaseNotes then " " + src.releaseNotes[version] else "")
  }

  /** Tweets without release notes name their version unambiguously. */
  lemma TweetTextNamesVersion(src: ArtifactSource, version: string)
    requires version !in src.releaseNotes
    ensures AnnouncedVersion(src, TweetText(src, version)) == Some(version)
  {
    AnnouncedVersionOfHeadline(src, version);
  }

  /** The tweets for `versions`, in order. */
  function Announcements(src: ArtifactSource, versions: seq<string>): (msgs: seq<string>)
    ensures |msgs| == |versions|
    ensures forall i :: 0 <= i < |versions| ==> msgs[i] == TweetText(src, versions[i])
  {
    seq(|versions|, i requires 0 <= i < |versions| => TweetText(src, versions[i]))
  }

  /** What `checkAndTweet` does to the outside world, in order. */
  datatype Effect =
    | CacheRead
    | DbRead
    | Tweeted(message: string)
    | CacheStored(versions: set<string>)
    | DbStored(versions: set<string>)
  {
    predicate IsStore() {
      CacheStored? || DbStored?
    }
  }

  /** The exceptions `checkAndTweet` lets escape. */
  datatype Error =
    | IOError(message: string)       // the fetcher gave no versions
    | TweetFailed(message: string)   // the transport threw while posting this message

  /** The state after one call: the exception that escaped, if any, both
      stores, and the effects performed up to return or exception. */
  datatype Run = Run(failure: Option<Error>, cache: VersionsStore, db: VersionsStore, effects: seq<Effect>)

  /** Every store write comes after every tweet. */
  ghost predicate WritesAfterTweets(effects: seq<Effect>) {
    forall i, j :: 0 <= i < j < |effects| && effects[i].IsStore() ==> !effects[j].Tweeted?
  }

  /** The tweets among the effects, in order. */
  function TweetsOf(effects: seq<Effect>): seq<string> {
    if |effects| == 0 then []
    else if effects[0].Tweeted? then [effects[0].message] + TweetsOf(effects[1..])
    else TweetsOf(effects[1..])
  }

  /** Posting `messages` as effects. */
  function TweetEffects(messages: seq<string>): (effects: seq<Effect>)
    ensures |effects| == |messages|
    ensures forall i :: 0 <= i < |effects| ==> effects[i] == Tweeted(messages[i])
  {
    seq(|messages|, i requires 0 <= i < |messages| => Tweeted(messages[i]))
  }

  /** `checkAndTweet`. The fetcher's answer is `remote`, in the iteration
      order of the set it returns (`None` for `null`); posting throws for the
      messages in `refused`. */
  function CheckAndTweet(src: ArtifactSource, remote: Option<seq<string>>,
                         cache: VersionsStore, db: VersionsStore, refused: set<string>): (r: Run)
    requires ValidKey(src.key)
    requires remote.Some? ==> Distinct(remote.value)
    // a missing remote answer is an IOException before anything else happens
    ensures remote.None? ==>
      r == Run(Some(IOError(NoRemoteVersion)), cache, db, [])
    // the cache already knows every remote version: the db is not even read
    ensures remote.Some? && !IsNewRemoteVersion(Elems(remote.value), StoredVersions(cache, src.key)) ==>
      r == Run(None, cache, db, [CacheRead])
    // only the db knows every remote version: the cache is repaired, no tweet
    ensures remote.Some? && IsNewRemoteVersion(Elems(remote.value), StoredVersions(cache, src.key))
            && !IsNewRemoteVersion(Elems(remote.value), StoredVersions(db, src.key)) ==>
      r == Run(None, Write(cache, src.key, Elems(remote.value)), db,
               [CacheRead, DbRead, CacheStored(Elems(remote.value))])
    // stores are written only after the last tweet, and only when no tweet threw
    ensures WritesAfterTweets(r.effects)
    ensures r.failure.Some? ==> r.cache == cache && r.db == db
    ensures r.failure.Some? ==> forall i :: 0 <= i < |r.effects| ==> !r.effects[i].IsStore()
    // the only exceptions are the two the source throws
    ensures r.failure.Some? && r.failure.value.IOError? ==> remote.None?
    ensures r.failure.Some? && r.failure.value.TweetFailed? ==> r.failure.value.message in refused
  {
    match remote
    case None => Run(Some(IOError(NoRemoteVersion)), cache, db, [])
    case Some(order) =>
      var remoteVersions := Elems(order);
      if !IsNewRemoteVersion(remoteVersions, StoredVersions(cache, src.key)) then
        Run(None, cache, db, [CacheRead])
      else
        var knownVersions := StoredVersions(db, src.key);
        if !IsNewRemoteVersion(remoteVersions, knownVersions) then
          Run(None, Write(cache, src.key, remoteVersions), db, [CacheRead, DbRead, CacheStored(remoteVersions)])
        else
          TweetAndStore(src, order, knownVersions, cache, db, refused)
  }

  /** The last stage of `checkAndTweet`, once the cache and the db have both
      been read and found behind: tweet each version missing from the db, then
      store the remote set in the cache and in the db. */
  function TweetAndStore(src: ArtifactSource, order: seq<string>, knownVersions: set<string>,
                         cache: VersionsStore, db: VersionsStore, refused: set<string>): (r: Run)
    requires ValidKey(src.key)
    ensures WritesAfterTweets(r.effects)
    ensures r.failure.Some? ==> r.cache == cache && r.db == db
    ensures r.failure.Some? ==> forall i :: 0 <= i < |r.effects| ==> !r.effects[i].IsStore()
    ensures r.failure.Some? ==> r.failure.value.TweetFailed? && r.failure.value.message in refused
  {
    var remoteVersions := Elems(order);
    var delivery := Deliver(Announcements(src, Without(order, knownVersions)), refused);
    var tweeting := [CacheRead, DbRead] + TweetEffects(delivery.sent);
    var storing := [CacheStored(remoteVersions), DbStored(remoteVersions)];
    assert forall i :: 0 <= i < |tweeting| ==> !tweeting[i].IsStore();
    StoresAfterTweets(tweeting, storing);
    if delivery.thrownAt.Some? then
      Run(Some(TweetFailed(delivery.thrownAt.value)), cache, db, tweeting)
    else
      Run(None, Write(cache, src.key, remoteVersions), Write(db, src.key, remoteVersions),
          tweeting + storing)
  }

  /** Stores appended after a trace without stores come after every tweet. */
  lemma StoresAfterTweets(tweeting: seq<Effect>, storing: seq<Effect>)
    requires forall i :: 0 <= i < |tweeting| ==> !tweeting[i].IsStore()
    requires forall i :: 0 <= i < |storing| ==> !storing[i].Tweeted?
    ensures WritesAfterTweets(tweeting) && WritesAfterTweets(tweeting + storing)
  {
  }

  /** The tweets of concatenated traces are concatenated. */
  lemma {:induction false} TweetsOfConcat(a: seq<Effect>, b: seq<Effect>)
    ensures TweetsOf(a + b) == TweetsOf(a) + TweetsOf(b)
  {
    if |a| > 0 {
      assert (a + b)[1..] == a[1..] + b;
      TweetsOfConcat(a[1..], b);
    } else {
      assert a + b == b;
    }
  }

  /** Posting effects hold exactly the posted messages. */
  lemma {:induction false} TweetsOfTweetEffects(messages: seq<string>)
    ensures TweetsOf(TweetEffects(messages)) == messages
  {
    if |messages| > 0 {
      assert TweetEffects(messages)[1..] == TweetEffects(messages[1..]);
      TweetsOfTweetEffects(messages[1..]);
    }
  }

  /** One tweet is planned per version of `order` missing from `known`. */
  lemma PlannedCount(src: ArtifactSource, order: seq<string>, known: set<string>)
    requires Distinct(order)
    ensures |Announcements(src, Without(order, known))| == |Elems(order) - known|
  {
    DistinctCard(Without(order, known));
  }

  /** The tweets planned are those of the versions of `order` missing from
      `known`, and no others. */
  lemma PlannedElems(src: ArtifactSource, order: seq<string>, known: set<string>)
    ensures Elems(Announcements(src, Without(order, known))) == (set v | v in Elems(order) - known :: TweetText(src, v))
  {
    var newVersions := Without(order, known);
    var planned := Announcements(src, newVersions);
    var wanted := set v | v in Elems(order) - known :: TweetText(src, v);
    forall m | m in Elems(planned) ensures m in wanted {
      var i :| 0 <= i < |planned| && planned[i] == m;
      assert newVersions[i] in Elems(newVersions);
    }
    forall m | m in wanted ensures m in Elems(planned) {
      var v :| v in Elems(order) - known && m == TweetText(src, v);
      assert v in Elems(newVersions);
      var i :| 0 <= i < |newVersions| && newVersions[i] == v;
      assert planned[i] == m;
    }
  }

  /** Every planned tweet goes out exactly when no version missing from
      `known` has a refused tweet. */
  lemma PlannedDeliverable(src: ArtifactSource, order: seq<string>, known: set<string>, refused: set<string>)
    ensures var planned := Announcements(src, Without(order, known));
            (forall i :: 0 <= i < |planned| ==> planned[i] !in refused) <==>
            (forall v :: v in Elems(order) - known ==> TweetText(src, v) !in refused)
  {
    var newVersions := Without(order, known);
    var planned := Announcements(src, newVersions);
    if forall i :: 0 <= i < |planned| ==> planned[i] !in refused {
      forall v | v in Elems(order) - known ensures TweetText(src, v) !in refused {
        assert v in Elems(newVersions);
        var i :| 0 <= i < |newVersions| && newVersions[i] == v;
        assert planned[i] == TweetText(src, v);
      }
    } else {
      var i :| 0 <= i < |planned| && planned[i] in refused;
      assert newVersions[i] in Elems(newVersions);
    }
  }

  /** The trace of a tweeting run holds exactly the posted tweets. */
  lemma TweetingTrace(sent: seq<string>, rest: seq<Effect>)
    requires forall i :: 0 <= i < |rest| ==> rest[i].IsStore()
    ensures TweetsOf([CacheRead, DbRead] + TweetEffects(sent) + rest) == sent
  {
    TweetsOfConcat([CacheRead, DbRead], TweetEffects(sent));
    TweetsOfTweetEffects(sent);
    assert TweetsOf([CacheRead, DbRead]) == [] by {
      assert [CacheRead, DbRead][1..] == [DbRead];
    }
    TweetsOfConcat([CacheRead, DbRead] + TweetEffects(sent), rest);
    TweetsOfStores(rest);
  }

  /** Store writes hold no tweets. */
  lemma {:induction false} TweetsOfStores(effects: seq<Effect>)
    requires forall i :: 0 <= i < |effects| ==> effects[i].IsStore()
    ensures TweetsOf(effects) == []
  {
    if |effects| > 0 {
      TweetsOfStores(effects[1..]);
    }
  }

  /** When neither store knows every remote version, the versions missing from
      the db are announced, one tweet each in remote order, and none that the
      db already has. If every tweet goes out, both stores then hold exactly
      the remote set, not a union with what they held; if a tweet throws,
      the planned tweets before it have gone out, the failure names it, and
      neither store is written. */
  lemma TweetingRun(src: ArtifactSource, order: seq<string>,
                    cache: VersionsStore, db: VersionsStore, refused: set<string>)
    requires ValidKey(src.key) && Distinct(order)
    requires IsNewRemoteVersion(Elems(order), StoredVersions(cache, src.key))
    requires IsNewRemoteVersion(Elems(order), StoredVersions(db, src.key))
    ensures var r := CheckAndTweet(src, Some(order), cache, db, refused);
            var unseen := Elems(order) - StoredVersions(db, src.key);
            var planned := Announcements(src, Without(order, StoredVersions(db, src.key)));
            && r.effects[..2] == [CacheRead, DbRead]
            && TweetsOf(r.effects) <= planned
            && Elems(planned) == (set v | v in unseen :: TweetText(src, v))
            && |planned| == |unseen|
            && (r.failure.None? <==> forall v :: v in unseen ==> TweetText(src, v) !in refused)
            && (forall i :: 0 <= i < |TweetsOf(r.effects)| ==> TweetsOf(r.effects)[i] !in refused)
            && (r.failure.Some? ==>
                  && r.failure.value.TweetFailed? && r.failure.value.message in refused
                  && TweetsOf(r.effects) + [r.failure.value.message] <= planned
                  && r.cache == cache && r.db == db)
            && (r.failure.None? ==>
                  && TweetsOf(r.effects) == planned
                  && r.cache == Write(cache, src.key, Elems(order))
                  && r.db == Write(db, src.key, Elems(order))
                  && r.effects[|r.effects| - 2..] == [CacheStored(Elems(order)), DbStored(Elems(order))])
  {
    var known := StoredVersions(db, src.key);
    assert CheckAndTweet(src, Some(order), cache, db, refused) == TweetAndStore(src, order, known, cache, db, refused);
    PlannedCount(src, order, known);
    PlannedElems(src, order, known);
    PlannedDeliverable(src, order, known, refused);
    TweetAndStoreTrace(src, order, known, cache, db, refused);
  }

  /** The effects and stores of the tweeting stage. */
  lemma TweetAndStoreTrace(src: ArtifactSource, order: seq<string>, known: set<string>,
                           cache: VersionsStore, db: VersionsStore, refused: set<string>)
    requires ValidKey(src.key)
    ensures var r := TweetAndStore(src, order, known, cache, db, refused);
            var planned := Announcements(src, Without(order, known));
            && r.effects[..2] == [CacheRead, DbRead]
            && TweetsOf(r.effects) <= planned
            && (r.failure.None? <==> forall i :: 0 <= i < |planned| ==> planned[i] !in refused)
            && (forall i :: 0 <= i < |TweetsOf(r.effects)| ==> TweetsOf(r.effects)[i] !in refused)
            && (r.failure.Some? ==> TweetsOf(r.effects) + [r.failure.value.message] <= planned)
            && (r.failure.None? ==>
                  && TweetsOf(r.effects) == planned
                  && r.cache == Write(cache, src.key, Elems(order))
                  && r.db == Write(db, src.key, Elems(order))
                  && r.effects[|r.effects| - 2..] == [CacheStored(Elems(order)), DbStored(Elems(order))])
  {
    var planned := Announcements(src, Without(order, known));
    var d := Deliver(planned, refused);
    var r := TweetAndStore(src, order, known, cache, db, refused);
    if d.thrownAt.None? {
      var stores := [CacheStored(Elems(order)), DbStored(Elems(order))];
      assert r.effects == [CacheRead, DbRead] + TweetEffects(d.sent) + stores;
      TweetingTrace(d.sent, stores);
    } else {
      assert r.effects == [CacheRead, DbRead] + TweetEffects(d.sent) + [];
      TweetingTrace(d.sent, []);
    }
  }

  /** After a run that returns normally, running again against the same remote
      versions only reads the cache: nothing is tweeted twice. */
  lemma QuietAfterSuccess(src: ArtifactSource, order: seq<string>,
                          cache: VersionsStore, db: VersionsStore, refused: set<string>, refusedLater: set<string>)
    requires ValidKey(src.key) && Distinct(order)
    requires CheckAndTweet(src, Some(order), cache, db, refused).failure.None?
    ensures var r := CheckAndTweet(src, Some(order), cache, db, refused);
            CheckAndTweet(src, Some(order), r.cache, r.db, refusedLater) == Run(None, r.cache, r.db, [CacheRead])
  {
    var r := CheckAndTweet(src, Some(order), cache, db, refused);
    var remoteVersions := Elems(order);
    if !IsNewRemoteVersion(remoteVersions, StoredVersions(cache, src.key)) {
      assert r.cache == cache;
    } else if !IsNewRemoteVersion(remoteVersions, StoredVersions(db, src.key)) {
      assert StoredVersions(r.cache, src.key) == remoteVersions;
    } else {
      TweetingRun(src, order, cache, db, refused);
    }
    assert !IsNewRemoteVersion(remoteVersions, StoredVersions(r.cache, src.key));
  }
}

=== FILE: decimal.dfy ===
/** Java's 32-bit `Int`, `Integer.toString` and `Integer.parseInt`, as used
    for the schema-version marker that the stores keep as a decimal string. */
module Decimal {
  import opened Wrappers

  const IntMin: int := -0x8000_0000
  const IntMax: int := 0x7fff_ffff

  /** `n` is representable as a Kotlin `Int`. */
  predicate IsInt32(n: int) {
    IntMin <= n <= IntMax
  }

  /** Two's-complement wrap-around of `Int` arithmetic. */
  function Wrap32(n: int): (r: int)
    ensures IsInt32(r)
    ensures (r - n) % 0x1_0000_0000 == 0
    ensures IsInt32(n) ==> r == n
  {
    (n - IntMin) % 0x1_0000_0000 + IntMin
  }

  predicate IsDigit(c: char) {
    '0' <= c <= '9'
  }

  predicate AllDigits(s: string) {
    forall i :: 0 <= i < |s| ==> IsDigit(s[i])
  }

  function DigitChar(d: nat): (c: char)
    requires d < 10
    ensures IsDigit(c)
  {
    (('0' as int) + d) as char
  }

  function DigitValue(c: char): (d: nat)
    requires IsDigit(c)
    ensures d < 10 && DigitChar(d) == c
  {
    (c as int) - ('0' as int)
  }

  /** Decimal digits of a natural number, most significant first, without
      leading zeros. */
  function NatToString(n: nat): (s: string)
    ensures |s| > 0 && AllDigits(s)
    ensures |s| > 1 ==> s[0] != '0'
  {
    if n < 10 then [DigitChar(n)] else NatToString(n / 10) + [DigitChar(n % 10)]
  }

  /** `Integer.toString(n)`: a minus sign for negative numbers, then the digits. */
  function IntToString(n: int): string {
    if n < 0 then "-" + NatToString(-n) else NatToString(n)
  }

  /** The number a string of decimal digits denotes. */
  function DigitsValue(s: string): nat
    requires AllDigits(s)
  {
    if |s| == 0 then 0 else DigitsValue(s[..|s| - 1]) * 10 + DigitValue(s[|s| - 1])
  }

  /** `Integer.parseInt(s)`, `None` where it throws `NumberFormatException`:
      an optional sign, at least one ASCII digit and nothing else, with a
      value within the range of `Int`. */
  function ParseInt(s: string): (r: Option<int>)
    ensures r.Some? ==> IsInt32(r.value)
    ensures r.Some? ==> |s| > 0 && IsDigit(s[|s| - 1])
    ensures r.Some? ==> s[0] == '-' || s[0] == '+' || IsDigit(s[0])
    ensures r.Some? ==> forall i :: 0 < i < |s| ==> IsDigit(s[i])
  {
    if |s| == 0 then None
    else
      var digits := if s[0] == '-' || s[0] == '+' then s[1..] else s;
      if |digits| == 0 || !AllDigits(digits) then None
      else
        var magnitude: int := DigitsValue(digits);
        var value: int := if s[0] == '-' then -magnitude else magnitude;
        if IsInt32(value) then Some(value) else None
  }

  /** The digits of a number denote that number. */
  lemma {:induction false} NatToStringValue(n: nat)
    ensures DigitsValue(NatToString(n)) == n
  {
    if n >= 10 {
      NatToStringValue(n / 10);
      var s := NatToString(n);
      assert s[..|s| - 1] == NatToString(n / 10);
    }
  }

  /** Parsing the decimal form of an `Int` gives that `Int` back. */
  lemma ParseIntToString(n: int)
    requires IsInt32(n)
    ensures ParseInt(IntToString(n)) == Some(n)
  {
    var s := IntToString(n);
    if n < 0 {
      var digits := NatToString(-n);
      NatToStringValue(-n);
      assert s == "-" + digits && s[0] == '-';
      assert s[1..] == digits;
      assert DigitsValue(s[1..]) == -n;
    } else {
      NatToStringValue(n);
      assert s == NatToString(n) && IsDigit(s[0]);
      assert DigitsValue(s) == n;
    }
  }
}

=== FILE: kv_store.dfy ===
/** The `Store` contract of stores.kt with the semantics of `MemStore`: a
    finite map from keys to values, read and written one key at a time. */
module KvStore {
  import opened Wrappers

  /** Keys are restricted to latin1 `A-Za-z0-9-_`. */
  predicate IsKeyChar(c: char) {
    ('A' <= c <= 'Z') || ('a' <= c <= 'z') || ('0' <= c <= '9') || c == '-' || c == '_'
  }

  predicate ValidKey(key: string) {
    |key| > 0 && forall i :: 0 <= i < |key| ==> IsKeyChar(key[i])
  }

  /** A store holding values of type `V` (bytes in stores.kt, strings in the
      later revision the migrator works against). */
  type Store<V> = map<string, V>

  /** A newly constructed `MemStore`. */
  function Empty<V>(): Store<V> {
    map[]
  }

  /** `MemStore.read`: the value last written at `key`, `None` if there is none. */
  function Read<V>(s: Store<V>, key: string): Option<V>
    requires ValidKey(key)
  {
    if key in s then Some(s[key]) else None
  }

  /** `MemStore.write`: replaces whatever was stored at `key`. */
  function Write<V>(s: Store<V>, key: string, value: V): Store<V>
    requires ValidKey(key)
  {
    s[key := value]
  }

  /** A fresh store holds nothing. */
  lemma ReadUnwritten<V>(key: string)
    requires ValidKey(key)
    ensures Read(Empty<V>(), key) == None
  {
  }

  /** A read returns what was just written. */
  lemma ReadAfterWrite<V>(s: Store<V>, key: string, value: V)
    requires ValidKey(key)
    ensures Read(Write(s, key, value), key) == Some(value)
  {
  }

  /** A second write to the same key overwrites the first. */
  lemma WriteOverwrites<V>(s: Store<V>, key: string, first: V, second: V)
    requires ValidKey(key)
    ensures Write(Write(s, key, first), key, second) == Write(s, key, second)
  {
  }

  /** A write leaves every other key as it was. */
  lemma WriteIsolated<V>(s: Store<V>, key: string, value: V, other: string)
    requires ValidKey(key) && ValidKey(other) && other != key
    ensures Read(Write(s, key, value), other) == Read(s, other)
  {
  }

  /** One `write` call. */
  datatype Put<V> = Put(key: string, value: V)

  /** The store reached from `s` by performing `writes` in order. */
  function Replay<V>(s: Store<V>, writes: seq<Put<V>>): Store<V> {
    if |writes| == 0 then s
    else
      var last := writes[|writes| - 1];
      Replay(s, writes[..|writes| - 1])[last.key := last.value]
  }

  /** A store together with the writes performed on it so far, so that an
      operation that must not write can be seen not to. */
  datatype Journal<V> = Journal(store: Store<V>, writes: seq<Put<V>>) {

    /** The journal agrees with performing its writes on `origin`. */
    ghost predicate From(origin: Store<V>) {
      store == Replay(origin, writes)
    }

    /** Performs and logs one write. */
    function Record(key: string, value: V): (j: Journal<V>)
      requires ValidKey(key)
      ensures j.writes == writes + [Put(key, value)]
      ensures Read(j.store, key) == Some(value)
    {
      Journal(Write(store, key, value), writes + [Put(key, value)])
    }
  }

  /** Recording a write keeps a journal in step with its origin. */
  lemma RecordFrom<V>(j: Journal<V>, origin: Store<V>, key: string, value: V)
    requires ValidKey(key) && j.From(origin)
    ensures j.Record(key, value).From(origin)
  {
    var j' := j.Record(key, value);
    assert j'.writes[..|j'.writes| - 1] == j.writes;
  }

  /** A journal that has not written anything yet. */
  function Begin<V>(s: Store<V>): (j: Journal<V>)
    ensures j.From(s) && j.store == s
  {
    Journal(s, [])
  }
}

=== FILE: legacy_migration.dfy ===
/** migrate.kt (the earlier revision): a schema marker and a single no-op
    step up to version 1. */
module LegacyMigration {
  import opened Wrappers
  import opened Decimal
  import opened KvStore

  const DbVersion: int := 1
  /** Reserved key holding the schema marker as a decimal string. */
  const VersionKey := "db_version"

  /** The text of the marker: the stored string, `"1"` when absent. */
  function MarkerText(s: Store<string>): string {
    Read(s, VersionKey).GetOr("1")
  }

  /** The `Store.version` getter; `None` where `Integer.parseInt` throws. */
  function Marker(s: Store<string>): Option<int> {
    ParseInt(MarkerText(s))
  }

  /** An absent marker reads as version 1. */
  lemma MarkerDefault(s: Store<string>)
    requires VersionKey !in s
    ensures Marker(s) == Some(1)
  {
    ParseIntToString(1);
  }

  /** The exceptions a migration lets escape. */
  datatype Failure =
    | NotANumber(text: string)      // NumberFormatException reading the marker
    | UnknownTarget(version: int)   // IllegalStateException: no step to this version

  /** The exception that escaped, if any, and the writes made up to then. */
  datatype Outcome = Outcome(failure: Option<Failure>, journal: Journal<string>)

  /** `upgradeTo`: the step to `target`, after which the marker is `target`. */
  function UpgradeTo(j: Journal<string>, target: int): (o: Outcome)
    ensures o.failure.None? <==> target == DbVersion
    ensures o.failure.None? ==> o.journal == j.Record(VersionKey, IntToString(target))
    ensures o.failure.Some? ==> o.journal == j && o.failure.value == UnknownTarget(target)
  {
    if target == 1 then Outcome(None, j.Record(VersionKey, IntToString(target)))
    else Outcome(Some(UnknownTarget(target)), j)
  }

  /** After a successful step the marker reads back as the step's target. */
  lemma UpgradeToSetsMarker(j: Journal<string>, target: int)
    requires UpgradeTo(j, target).failure.None?
    ensures Marker(UpgradeTo(j, target).journal.store) == Some(target)
  {
    ParseIntToString(target);
  }

  /** `for (v in from..to) store.upgradeTo(v)`. */
  function UpgradeRange(j: Journal<string>, from: int, to: int): Outcome
    decreases to - from + 1
  {
    if from > to then Outcome(None, j)
    else
      var o := UpgradeTo(j, from);
      if o.failure.Some? then o else UpgradeRange(o.journal, from + 1, to)
  }

  /** `migrate` as written: `store.version + 1` is `Int` arithmetic, which
      wraps around at `Int.MAX_VALUE`. */
  function MigrateAsWritten(s: Store<string>): Outcome {
    match Marker(s)
    case None => Outcome(Some(NotANumber(MarkerText(s))), Begin(s))
    case Some(version) => UpgradeRange(Begin(s), Wrap32(version + 1), DbVersion)
  }

  /** `migrate` with the first step computed without wrap-around. */
  function Migrate(s: Store<string>): Outcome {
    match Marker(s)
    case None => Outcome(Some(NotANumber(MarkerText(s))), Begin(s))
    case Some(version) => UpgradeRange(Begin(s), version + 1, DbVersion)
  }

  /** A marker of 1 or more runs no step and writes nothing; in particular an
      absent marker. */
  lemma MigrateCurrentWritesNothing(s: Store<string>)
    requires Marker(s).Some? && Marker(s).value >= DbVersion
    ensures Migrate(s) == Outcome(None, Begin(s))
  {
  }

  /** A marker of 0 runs the no-op step to 1 and writes exactly the marker
      `"1"`. */
  lemma MigrateFromZero(s: Store<string>)
    requires Marker(s) == Some(0)
    ensures Migrate(s).failure.None?
    ensures Migrate(s).journal.writes == [Put(VersionKey, "1")]
    ensures Marker(Migrate(s).journal.store) == Some(DbVersion)
    ensures Migrate(s).journal.From(s)
  {
    var j := Begin(s);
    UpgradeToSetsMarker(j, 1);
    RecordFrom(j, s, VersionKey, IntToString(1));
  }

  /** A negative marker makes the first step target something other than 1,
      which throws before anything is written. */
  lemma MigrateNegativeFails(s: Store<string>)
    requires Marker(s).Some? && Marker(s).value < 0
    ensures Migrate(s) == Outcome(Some(UnknownTarget(Marker(s).value + 1)), Begin(s))
    ensures Marker(s).value + 1 != DbVersion
  {
  }

  /** The two readings agree except on the largest `Int` marker. */
  lemma MigrateAsWrittenAgrees(s: Store<string>)
    requires Marker(s) != Some(IntMax)
    ensures MigrateAsWritten(s) == Migrate(s)
  {
  }

  /** The largest `Int` as marker: `version + 1` wraps to `Int.MIN_VALUE`, so
      the code as written tries a step to `Int.MIN_VALUE` and throws, while a
      marker that high needs no step at all. */
  lemma MigrateAsWrittenOverflows(s: Store<string>)
    requires Marker(s) == Some(IntMax)
    ensures MigrateAsWritten(s) == Outcome(Some(UnknownTarget(IntMin)), Begin(s))
    ensures Migrate(s) == Outcome(None, Begin(s))
  {
    var start := Wrap32(IntMax + 1);
    assert start == IntMin;
    assert UpgradeTo(Begin(s), start).failure == Some(UnknownTarget(IntMin));
  }

  /** Such a store exists: the one holding the decimal form of `Int.MAX_VALUE`. */
  lemma MaxMarkerStore()
    ensures Marker(map[VersionKey := IntToString(IntMax)]) == Some(IntMax)
  {
    var s := map[VersionKey := IntToString(IntMax)];
    ParseIntToString(IntMax);
    assert MarkerText(s) == IntToString(IntMax);
  }
}

=== FILE: schema_migration.dfy ===
/** store/migrate.kt: brings a store to schema version 2 one step at a time,
    keeping a manifest of the record keys it must rewrite. */
module SchemaMigration {
  import opened Wrappers
  import opened Seqs
  import opened Text
  import opened Decimal
  import opened KvStore

  const DbVersion: int := 2
  /** Reserved key holding the schema marker as a decimal string. */
  const VersionKey := "db_version"
  /** Reserved key holding the comma-joined manifest of record keys. */
  const KeysKey := "db_keys"
  /** The key the tests use, always added to the guessed manifest. */
  const TestKey := "key"

  predicate Reserved(key: string) {
    key == VersionKey || key == KeysKey
  }

  /** Record shapes. An `Instant` is kept as a number. */
  datatype Version1 = Version1(versions: seq<string>)
  datatype PendingVersion2 = PendingVersion2(version: string, seenAt: int)
  datatype Version2 = Version2(versions: seq<string>, pending: seq<PendingVersion2>)

  /** The secondary constructor `Version2(v: Version1)`. */
  function Upgraded(v: Version1): Version2 {
    Version2(v.versions, [])
  }

  /** A JSON document written by one of the record adapters. Documents are
      kept structured, so decoding an encoded record gives it back. */
  datatype Document = Version1Doc(v1: Version1) | Version2Doc(v2: Version2)

  /** A stored string: either plain text (the marker, the manifest) or the
      JSON of a record. */
  datatype Value = Text(text: string) | Json(doc: Document)

  function Quoted(s: string): string {
    "\"" + s + "\""
  }

  function QuotedAll(ss: seq<string>): (r: seq<string>)
    ensures |r| == |ss|
  {
    seq(|ss|, i requires 0 <= i < |ss| => Quoted(ss[i]))
  }

  function PendingJson(p: seq<PendingVersion2>): (r: seq<string>)
    ensures |r| == |p|
  {
    seq(|p|, i requires 0 <= i < |p| =>
      "{\"version\":" + Quoted(p[i].version) + ",\"seenAt\":" + IntToString(p[i].seenAt) + "}")
  }

  /** The JSON text of a document, as read by code that treats it as a
      plain string. */
  function Render(d: Document): (t: string)
    ensures |t| > 0 && t[0] == '{'
  {
    match d
    case Version1Doc(v) => "{\"versions\":[" + Join(QuotedAll(v.versions), ',') + "]}"
    case Version2Doc(v) =>
      "{\"versions\":[" + Join(QuotedAll(v.versions), ',') + "],\"pending\":["
      + Join(PendingJson(v.pending), ',') + "]}"
  }

  /** The string a stored value is. */
  function TextOf(v: Value): string {
    match v
    case Text(t) => t
    case Json(d) => Render(d)
  }

  /** `v1Adapter.fromJson`: `None` where Moshi throws. Plain text is not a
      record; a version 2 record reads as version 1 because unknown fields
      are skipped. */
  function DecodeVersion1(v: Value): Option<Version1> {
    match v
    case Json(Version1Doc(r)) => Some(r)
    case Json(Version2Doc(r)) => Some(Version1(r.versions))
    case Text(_) => None
  }

  /** `v2Adapter.toJson`. */
  function EncodeVersion2(r: Version2): Value {
    Json(Version2Doc(r))
  }

  /** The value step 1 -> 2 stores in place of a decodable version 1 record. */
  function Rewritten(v: Value): Value
    requires DecodeVersion1(v).Some?
  {
    EncodeVersion2(Upgraded(DecodeVersion1(v).value))
  }

  /** The text of the marker: the stored string, `"1"` when absent. */
  function MarkerText(s: Store<Value>): string {
    if VersionKey in s then TextOf(s[VersionKey]) else "1"
  }

  /** The `Store.version` getter; `None` where `Integer.parseInt` throws. */
  function Marker(s: Store<Value>): Option<int> {
    ParseInt(MarkerText(s))
  }

  /** An absent marker reads as schema version 1. */
  lemma MarkerDefault(s: Store<Value>)
    requires VersionKey !in s
    ensures Marker(s) == Some(1)
  {
    ParseIntToString(1);
  }

  /** The `Store.keys` getter: the stored manifest split on commas, or when
      there is none the keys of all configured artifacts plus the test key,
      each once in first-seen order. */
  function Keys(s: Store<Value>, defaults: seq<string>): (keys: seq<string>)
    ensures Distinct(keys) && |keys| > 0
    ensures KeysKey in s ==> Elems(keys) == Elems(Split(TextOf(s[KeysKey]), ','))
    ensures KeysKey !in s ==> Elems(keys) == Elems(defaults) + {TestKey}
  {
    if KeysKey in s then Dedup(Split(TextOf(s[KeysKey]), ','))
    else
      assert Elems(defaults + [TestKey]) == Elems(defaults) + {TestKey};
      Dedup(defaults + [TestKey])
  }

  predicate AllValid(keys: seq<string>) {
    forall i :: 0 <= i < |keys| ==> ValidKey(keys[i])
  }

  /** Step 1 -> 2 reads every manifest key from the store, so the manifest
      must hold valid store keys whenever that step runs: from marker 0 or 1.
      Other markers never read the keys it lists, although every marker
      other than 2 reads the manifest record itself. */
  predicate ManifestUsable(s: Store<Value>, defaults: seq<string>) {
    Marker(s) == Some(0) || Marker(s) == Some(1) ==> AllValid(Keys(s, defaults))
  }

  /** The `Store.version` setter. */
  function SetMarker(j: Journal<Value>, version: int): Journal<Value> {
    j.Record(VersionKey, Text(IntToString(version)))
  }

  /** The `Store.keys` setter. */
  function SetKeys(j: Journal<Value>, keys: seq<string>): Journal<Value> {
    j.Record(KeysKey, Text(Join(keys, ',')))
  }

  /** The exceptions a migration lets escape. */
  datatype Failure =
    | NotANumber(text: string)       // NumberFormatException reading the marker
    | UnknownVersion(version: int)   // IllegalStateException: no step from this version
    | Undecodable(key: string)       // Moshi could not read the record at this key

  /** The exception that escaped, if any, and the writes made up to then:
      migration is not transactional. */
  datatype Outcome = Outcome(failure: Option<Failure>, journal: Journal<Value>)

  /** The rewriting part of step 1 -> 2: each key in turn is read and, when it
      has a value, decoded as version 1 and written back as version 2. */
  function RewriteRecords(j: Journal<Value>, keys: seq<string>): Outcome
    requires AllValid(keys)
    decreases |keys|
  {
    if |keys| == 0 then Outcome(None, j)
    else
      match Read(j.store, keys[0])
      case None => RewriteRecords(j, keys[1..])
      case Some(v) =>
        if DecodeVersion1(v).None? then Outcome(Some(Undecodable(keys[0])), j)
        else RewriteRecords(j.Record(keys[0], Rewritten(v)), keys[1..])
  }

  /** `upgrade`: one step from `current` to `current + 1`, which is then
      recorded as the marker. */
  function Upgrade(j: Journal<Value>, current: int, keys: seq<string>): Outcome
    requires current == 1 ==> AllValid(keys)
  {
    if current == 0 then Outcome(None, SetMarker(j, current + 1))
    else if current == 1 then
      var o := RewriteRecords(SetKeys(j, keys), keys);
      if o.failure.Some? then o else Outcome(None, SetMarker(o.journal, current + 1))
    else Outcome(Some(UnknownVersion(current)), j)
  }

  /** `for (v in from until DB_VERSION) upgrade(store, v, ...)`. */
  function UpgradeFrom(j: Journal<Value>, from: int, keys: seq<string>): Outcome
    requires 0 <= from <= 1 ==> AllValid(keys)
    decreases DbVersion - from
  {
    if from >= DbVersion then Outcome(None, j)
    else
      var o := Upgrade(j, from, keys);
      if o.failure.Some? then o else UpgradeFrom(o.journal, from + 1, keys)
  }

  /** `migrate`: the store the returned `MigratedStore` wraps is the journal's. */
  function Migrate(s: Store<Value>, defaults: seq<string>): Outcome
    requires ManifestUsable(s, defaults)
  {
    match Marker(s)
    case None => Outcome(Some(NotANumber(MarkerText(s))), Begin(s))
    case Some(version) =>
      if version == DbVersion then Outcome(None, Begin(s))
      else UpgradeFrom(Begin(s), version, Keys(s, defaults))
  }

  /** `MigratedStore.write`: a plain write, followed, unless the manifest
      itself was written, by adding the key to the manifest. */
  function MigratedWrite(s: Store<Value>, defaults: seq<string>, key: string, value: Value): Journal<Value>
    requires ValidKey(key)
  {
    var j := Begin(s).Record(key, value);
    if key != KeysKey then SetKeys(j, Dedup(Keys(j.store, defaults) + [key])) else j
  }

  /** A valid key holds no comma. */
  lemma ValidKeysCommaFree(keys: seq<string>)
    requires AllValid(keys)
    ensures forall i :: 0 <= i < |keys| ==> ',' !in keys[i]
  {
  }

  /** The manifest round trip: a non-empty set of valid keys, joined with
      commas and split again, is the same keys in the same order. */
  lemma ManifestRoundTrip(keys: seq<string>)
    requires AllValid(keys) && Distinct(keys) && |keys| > 0
    ensures Dedup(Split(Join(keys, ','), ',')) == keys
    ensures |Join(keys, ',')| > 0
  {
    ValidKeysCommaFree(keys);
    SplitJoin(keys, ',');
    DedupOfDistinct(keys);
    assert ValidKey(keys[0]);
    if |keys| > 1 {
      assert Join(keys, ',') == keys[0] + [','] + Join(keys[1..], ',');
    }
  }

  /** Writing the manifest makes it list exactly the given keys. */
  lemma KeysAfterSetKeys(j: Journal<Value>, keys: seq<string>, defaults: seq<string>)
    requires AllValid(keys) && Distinct(keys) && |keys| > 0
    ensures Keys(SetKeys(j, keys).store, defaults) == keys
    ensures Read(SetKeys(j, keys).store, KeysKey) == Some(Text(Join(keys, ',')))
  {
    ManifestRoundTrip(keys);
  }

  /** `s` and `t` agree on every key except the reserved ones. */
  ghost predicate AgreeOutsideReserved(s: Store<Value>, t: Store<Value>) {
    forall k :: !Reserved(k) ==> (k in s <==> k in t) && (k in s ==> s[k] == t[k])
  }

  /** The rewriting of step 1 -> 2 over distinct keys. It fails exactly when
      some listed key holds a value that does not decode, and then names such
      a key; when it succeeds every listed key that had a value holds that
      record with an empty pending list. Whether it fails or not, a listed
      record is either left as it was or rewritten from a decodable version 1
      record, never anything else. Listed keys without a value, and keys not
      listed, are never touched. */
  lemma {:induction false} RewriteRecordsSpec(j: Journal<Value>, keys: seq<string>)
    requires AllValid(keys) && Distinct(keys)
    ensures var o := RewriteRecords(j, keys);
            && (o.failure.None? <==> forall k :: k in keys && k in j.store ==> DecodeVersion1(j.store[k]).Some?)
            && (o.failure.Some? ==>
                  && o.failure.value.Undecodable?
                  && o.failure.value.key in keys && o.failure.value.key in j.store
                  && DecodeVersion1(j.store[o.failure.value.key]).None?)
            && (o.failure.None? ==>
                  forall k :: k in keys && k in j.store ==>
                    DecodeVersion1(j.store[k]).Some? && k in o.journal.store
                    && o.journal.store[k] == Rewritten(j.store[k]))
            && (forall k :: k in keys && k in j.store ==>
                  k in o.journal.store
                  && (o.journal.store[k] == j.store[k]
                      || (DecodeVersion1(j.store[k]).Some? && o.journal.store[k] == Rewritten(j.store[k]))))
            && (forall k :: k !in keys || k !in j.store ==>
                  (k in o.journal.store <==> k in j.store)
                  && (k in j.store ==> o.journal.store[k] == j.store[k]))
    decreases |keys|, 1
  {
    RewriteRecordsKeepsOrUpgrades(j, keys);
    if |keys| > 0 {
      var k0, rest := keys[0], keys[1..];
      assert keys == [k0] + rest;
      assert Distinct(rest) && k0 !in rest;
      if k0 !in j.store {
        RewriteRecordsSpec(j, rest);
      } else if DecodeVersion1(j.store[k0]).Some? {
        var j' := j.Record(k0, Rewritten(j.store[k0]));
        RewriteRecordsSpec(j', rest);
      }
    }
  }

  /** Each listed record a rewrite over distinct keys leaves is either the
      one it found or that one upgraded, whether the rewrite fails or not. */
  lemma {:induction false} RewriteRecordsKeepsOrUpgrades(j: Journal<Value>, keys: seq<string>)
    requires AllValid(keys) && Distinct(keys)
    ensures var o := RewriteRecords(j, keys);
            forall k :: k in keys && k in j.store ==>
              k in o.journal.store
              && (o.journal.store[k] == j.store[k]
                  || (DecodeVersion1(j.store[k]).Some? && o.journal.store[k] == Rewritten(j.store[k])))
    decreases |keys|, 0
  {
    if |keys| > 0 {
      var k0, rest := keys[0], keys[1..];
      assert keys == [k0] + rest;
      assert Distinct(rest) && k0 !in rest;
      if k0 !in j.store {
        RewriteRecordsKeepsOrUpgrades(j, rest);
      } else if DecodeVersion1(j.store[k0]).Some? {
        var j' := j.Record(k0, Rewritten(j.store[k0]));
        RewriteRecordsKeepsOrUpgrades(j', rest);
        RewriteRecordsSpec(j', rest);
      }
    }
  }

  /** Recording writes keeps a rewrite's journal in step with its origin. */
  lemma {:induction false} RewriteRecordsFrom(j: Journal<Value>, keys: seq<string>, origin: Store<Value>)
    requires AllValid(keys) && j.From(origin)
    ensures RewriteRecords(j, keys).journal.From(origin)
    decreases |keys|
  {
    if |keys| > 0 {
      match Read(j.store, keys[0])
      case None => RewriteRecordsFrom(j, keys[1..], origin);
      case Some(v) =>
        if DecodeVersion1(v).Some? {
          RecordFrom(j, origin, keys[0], Rewritten(v));
          RewriteRecordsFrom(j.Record(keys[0], Rewritten(v)), keys[1..], origin);
        }
    }
  }

  /** A store already at or beyond the current schema version is migrated
      without a single write. */
  lemma MigrateCurrentWritesNothing(s: Store<Value>, defaults: seq<string>)
    requires Marker(s).Some? && Marker(s).value >= DbVersion
    ensures Migrate(s, defaults) == Outcome(None, Begin(s))
  {
  }

  /** A negative marker has no upgrade step: the migration throws before it
      writes anything. */
  lemma MigrateNegativeFails(s: Store<Value>, defaults: seq<string>)
    requires Marker(s).Some? && Marker(s).value < 0
    ensures Migrate(s, defaults) == Outcome(Some(UnknownVersion(Marker(s).value)), Begin(s))
  {
  }

  /** Setting the marker keeps a journal in step with its origin and
      touches no other key. */
  lemma SetMarkerFrom(j: Journal<Value>, origin: Store<Value>, version: int)
    ensures j.From(origin) ==> SetMarker(j, version).From(origin)
    ensures AgreeOutsideReserved(j.store, SetMarker(j, version).store)
  {
    if j.From(origin) {
      RecordFrom(j, origin, VersionKey, Text(IntToString(version)));
    }
  }

  /** Setting the manifest keeps a journal in step with its origin and
      touches no other key. */
  lemma SetKeysFrom(j: Journal<Value>, origin: Store<Value>, keys: seq<string>)
    ensures j.From(origin) ==> SetKeys(j, keys).From(origin)
    ensures AgreeOutsideReserved(j.store, SetKeys(j, keys).store)
  {
    if j.From(origin) {
      RecordFrom(j, origin, KeysKey, Text(Join(keys, ',')));
    }
  }

  /** The journal before the rewriting of step 1 -> 2 starts, when migrating
      from `version` 0 or 1: step 0 -> 1 only writes the marker, and step 1 -> 2
      first writes the manifest. */
  function BeforeRewrite(s: Store<Value>, version: int, keys: seq<string>): (j: Journal<Value>)
    requires version == 0 || version == 1
    ensures j.From(s)
    ensures AgreeOutsideReserved(s, j.store)
  {
    var start := if version == 0 then SetMarker(Begin(s), 1) else Begin(s);
    SetMarkerFrom(Begin(s), s, 1);
    assert start.From(s) && AgreeOutsideReserved(s, start.store);
    SetKeysFrom(start, s, keys);
    SetKeys(start, keys)
  }

  /** Migrating from version 0 or 1 is the rewrite of step 1 -> 2 followed,
      if it succeeds, by setting the marker to 2. */
  lemma MigrateOldUnfolds(s: Store<Value>, defaults: seq<string>)
    requires AllValid(Keys(s, defaults))
    requires Marker(s) == Some(0) || Marker(s) == Some(1)
    ensures var keys := Keys(s, defaults);
            var o := RewriteRecords(BeforeRewrite(s, Marker(s).value, keys), keys);
            Migrate(s, defaults) == if o.failure.Some? then o else Outcome(None, SetMarker(o.journal, 2))
  {
  }

  /** Migrating from schema version 0 or 1 performs exactly the writes it
      logs. */
  lemma MigrateFromOldFrom(s: Store<Value>, defaults: seq<string>)
    requires AllValid(Keys(s, defaults))
    requires Marker(s) == Some(0) || Marker(s) == Some(1)
    ensures Migrate(s, defaults).journal.From(s)
  {
    var keys := Keys(s, defaults);
    var j1 := BeforeRewrite(s, Marker(s).value, keys);
    var o := RewriteRecords(j1, keys);
    MigrateOldUnfolds(s, defaults);
    RewriteRecordsFrom(j1, keys, s);
    if o.failure.None? {
      SetMarkerFrom(o.journal, s, 2);
    }
  }

  /** The only failure a migration from schema version 0 or 1 can meet is a
      listed record that does not decode. */
  lemma MigrateFromOldFailure(s: Store<Value>, defaults: seq<string>)
    requires AllValid(Keys(s, defaults))
    requires Marker(s) == Some(0) || Marker(s) == Some(1)
    ensures var f := Migrate(s, defaults).failure;
            f.Some? ==> f.value.Undecodable? && f.value.key in Keys(s, defaults)
  {
    var keys := Keys(s, defaults);
    var j1 := BeforeRewrite(s, Marker(s).value, keys);
    MigrateOldUnfolds(s, defaults);
    RewriteRecordsSpec(j1, keys);
  }

  /** Whether a migration from schema version 0 or 1 fails or not, it leaves
      alone every key that is not reserved and is either unlisted or listed
      without a value, and it leaves every other non-reserved record either
      as it was or upgraded from a decodable version 1 record. */
  lemma MigrateFromOldUntouched(s: Store<Value>, defaults: seq<string>)
    requires AllValid(Keys(s, defaults))
    requires Marker(s) == Some(0) || Marker(s) == Some(1)
    ensures var migrated := Migrate(s, defaults).journal.store;
            && (forall k :: !Reserved(k) && (k !in Keys(s, defaults) || k !in s) ==>
                  (k in migrated <==> k in s) && (k in s ==> migrated[k] == s[k]))
            && (forall k :: !Reserved(k) && k in Keys(s, defaults) && k in s ==>
                  k in migrated
                  && (migrated[k] == s[k] || (DecodeVersion1(s[k]).Some? && migrated[k] == Rewritten(s[k]))))
  {
    var keys := Keys(s, defaults);
    var j1 := BeforeRewrite(s, Marker(s).value, keys);
    var o := RewriteRecords(j1, keys);
    MigrateOldUnfolds(s, defaults);
    RewriteRecordsSpec(j1, keys);
    var migrated := Migrate(s, defaults).journal.store;
    if o.failure.None? {
      SetMarkerFrom(o.journal, s, 2);
    }
    assert AgreeOutsideReserved(o.journal.store, migrated);
    forall k | !Reserved(k) && (k !in keys || k !in s)
      ensures (k in migrated <==> k in s) && (k in s ==> migrated[k] == s[k])
    {
      assert (k in j1.store <==> k in s) && (k in s ==> j1.store[k] == s[k]);
      assert (k in o.journal.store <==> k in j1.store) && (k in j1.store ==> o.journal.store[k] == j1.store[k]);
    }
    forall k | !Reserved(k) && k in keys && k in s
      ensures k in migrated
              && (migrated[k] == s[k] || (DecodeVersion1(s[k]).Some? && migrated[k] == Rewritten(s[k])))
    {
      assert k in j1.store && j1.store[k] == s[k];
      assert k in o.journal.store && migrated[k] == o.journal.store[k];
    }
  }

  /** A successful migration from schema version 0 or 1 leaves the marker at
      2 and the manifest listing the keys the migration used, which is never
      empty, even for an empty store. */
  lemma MigrateFromOldSucceeds(s: Store<Value>, defaults: seq<string>)
    requires AllValid(Keys(s, defaults))
    requires Marker(s) == Some(0) || Marker(s) == Some(1)
    requires Migrate(s, defaults).failure.None?
    ensures var migrated := Migrate(s, defaults).journal.store;
            && Marker(migrated) == Some(DbVersion)
            && Keys(migrated, defaults) == Keys(s, defaults)
            && KeysKey in migrated && |TextOf(migrated[KeysKey])| > 0
  {
    var keys := Keys(s, defaults);
    var start := if Marker(s).value == 0 then SetMarker(Begin(s), 1) else Begin(s);
    var j1 := BeforeRewrite(s, Marker(s).value, keys);
    var o := RewriteRecords(j1, keys);
    MigrateOldUnfolds(s, defaults);
    RewriteRecordsSpec(j1, keys);
    KeysAfterSetKeys(start, keys, defaults);
    assert j1.store[KeysKey] == Text(Join(keys, ','));
    // the manifest itself is plain text and would not have decoded
    assert KeysKey !in keys;
    assert o.journal.store[KeysKey] == j1.store[KeysKey];
    var done := SetMarker(o.journal, 2);
    assert Migrate(s, defaults).journal == done;
    ParseIntToString(2);
    ManifestRoundTrip(keys);
    assert done.store[KeysKey] == j1.store[KeysKey];
  }

  /** After a successful migration from schema version 0 or 1, every listed
      record that had a value holds the same versions and an empty pending
      list. */
  lemma MigrateFromOldRewrites(s: Store<Value>, defaults: seq<string>)
    requires AllValid(Keys(s, defaults))
    requires Marker(s) == Some(0) || Marker(s) == Some(1)
    requires Migrate(s, defaults).failure.None?
    ensures var migrated := Migrate(s, defaults).journal.store;
            forall k :: k in Keys(s, defaults) && k in s && !Reserved(k) ==>
              DecodeVersion1(s[k]).Some? && k in migrated && migrated[k] == Rewritten(s[k])
  {
    var keys := Keys(s, defaults);
    var j1 := BeforeRewrite(s, Marker(s).value, keys);
    var o := RewriteRecords(j1, keys);
    MigrateOldUnfolds(s, defaults);
    RewriteRecordsSpec(j1, keys);
    SetMarkerFrom(o.journal, s, 2);
    var migrated := Migrate(s, defaults).journal.store;
    forall k | k in keys && k in s && !Reserved(k)
      ensures DecodeVersion1(s[k]).Some? && k in migrated && migrated[k] == Rewritten(s[k])
    {
      assert k in j1.store && j1.store[k] == s[k];
      assert o.journal.store[k] == Rewritten(j1.store[k]);
    }
  }

  /** When no listed key is reserved, a migration from version 0 or 1
      succeeds exactly when every listed key that has a value decodes. */
  lemma MigrateFromOldSucceedsIff(s: Store<Value>, defaults: seq<string>)
    requires AllValid(Keys(s, defaults))
    requires Marker(s) == Some(0) || Marker(s) == Some(1)
    requires forall i :: 0 <= i < |Keys(s, defaults)| ==> !Reserved(Keys(s, defaults)[i])
    ensures Migrate(s, defaults).failure.None? <==>
            forall k :: k in Keys(s, defaults) && k in s ==> DecodeVersion1(s[k]).Some?
  {
    var keys := Keys(s, defaults);
    var j1 := BeforeRewrite(s, Marker(s).value, keys);
    MigrateOldUnfolds(s, defaults);
    RewriteRecordsSpec(j1, keys);
    forall k | k in keys
      ensures (k in j1.store <==> k in s) && (k in s ==> j1.store[k] == s[k])
    {
      assert !Reserved(k);
    }
  }

  /** Migrating a store a second time writes nothing. */
  lemma MigrateTwiceWritesNothing(s: Store<Value>, defaults: seq<string>)
    requires ManifestUsable(s, defaults)
    requires Migrate(s, defaults).failure.None?
    ensures var migrated := Migrate(s, defaults).journal.store;
            && Marker(migrated).Some? && Marker(migrated).value >= DbVersion
            && Migrate(migrated, defaults) == Outcome(None, Begin(migrated))
  {
    var m := Marker(s).value;
    if m == 0 || m == 1 {
      MigrateFromOldSucceeds(s, defaults);
    }
  }

  /** Adding a valid key to valid keys, each once, keeps them valid and adds
      exactly that key. */
  lemma AddValidKey(before: seq<string>, key: string)
    requires AllValid(before) && ValidKey(key)
    ensures AllValid(Dedup(before + [key]))
    ensures Elems(Dedup(before + [key])) == Elems(before) + {key}
  {
    var keys := Dedup(before + [key]);
    assert Elems(before + [key]) == Elems(before) + {key};
    forall i | 0 <= i < |keys| ensures ValidKey(keys[i]) {
      assert keys[i] in Elems(keys);
      if keys[i] != key {
        var n :| 0 <= n < |before| && before[n] == keys[i];
      }
    }
  }

  /** `MigratedStore.write` performs exactly the writes it logs. Writing
      the manifest key is a plain write; writing any other key stores the
      value there and touches no other key but the manifest. */
  lemma MigratedWriteSpec(s: Store<Value>, defaults: seq<string>, key: string, value: Value)
    requires ValidKey(key)
    ensures var j := MigratedWrite(s, defaults, key, value);
            && j.From(s)
            && (key == KeysKey ==> j.writes == [Put(key, value)] && j.store == Write(s, key, value))
            && (key != KeysKey ==>
                  && Read(j.store, key) == Some(value)
                  && forall k :: k != key && k != KeysKey ==>
                       (k in j.store <==> k in s) && (k in s ==> j.store[k] == s[k]))
  {
    var j1 := Begin(s).Record(key, value);
    RecordFrom(Begin(s), s, key, value);
    if key != KeysKey {
      SetKeysFrom(j1, s, Dedup(Keys(j1.store, defaults) + [key]));
    }
  }

  /** After `MigratedStore.write` of a key other than the manifest, the
      manifest lists the previous keys and the new one, each once, and all
      of them are valid keys. */
  lemma MigratedWriteManifest(s: Store<Value>, defaults: seq<string>, key: string, value: Value)
    requires ValidKey(key) && AllValid(Keys(s, defaults)) && key != KeysKey
    ensures var after := MigratedWrite(s, defaults, key, value).store;
            && Keys(after, defaults) == Dedup(Keys(s, defaults) + [key])
            && Elems(Keys(after, defaults)) == Elems(Keys(s, defaults)) + {key}
            && AllValid(Keys(after, defaults))
  {
    var j1 := Begin(s).Record(key, value);
    assert Keys(j1.store, defaults) == Keys(s, defaults);
    var keys := Dedup(Keys(s, defaults) + [key]);
    AddValidKey(Keys(s, defaults), key);
    KeysAfterSetKeys(j1, keys, defaults);
  }
}

=== FILE: seqs.dfy ===
/** Sequences standing in for Kotlin lists and insertion-ordered sets. */
module Seqs {

  /** No element occurs twice: the iteration order of a set. */
  predicate Distinct<T(==)>(s: seq<T>) {
    forall i, j :: 0 <= i < j < |s| ==> s[i] != s[j]
  }

  /** The elements of a sequence, as a set. */
  function Elems<T>(s: seq<T>): set<T> {
    set x | x in s
  }

  /** Keeps the elements not in `drop`, in order: `filterNot { drop.contains(it) }`
      and `Set - Iterable` both iterate this way. */
  function Without<T(==)>(s: seq<T>, drop: set<T>): (r: seq<T>)
    ensures |r| <= |s|
    ensures Elems(r) == Elems(s) - drop
    ensures Distinct(s) ==> Distinct(r)
  {
    if |s| == 0 then []
    else
      var rest := Without(s[1..], drop);
      ElemsCons(s);
      if s[0] in drop then rest
      else
        var r := [s[0]] + rest;
        ElemsCons(r);
        assert r[1..] == rest;
        assert Distinct(s) ==> Distinct(s[1..]) && s[0] !in Elems(rest);
        DistinctCons(s[0], rest);
        r
  }

  /** Removes repeated elements, keeping first occurrences in order: the
      `LinkedHashSet` built by `toSet()` and by `Set + element`. */
  function Dedup<T(==)>(s: seq<T>): (r: seq<T>)
    ensures Distinct(r)
    ensures Elems(r) == Elems(s)
    ensures |r| <= |s|
  {
    if |s| == 0 then []
    else
      var front := Dedup(s[..|s| - 1]);
      assert s == s[..|s| - 1] + [s[|s| - 1]];
      assert Elems(s) == Elems(s[..|s| - 1]) + {s[|s| - 1]};
      if s[|s| - 1] in front then front
      else
        assert Elems(front + [s[|s| - 1]]) == Elems(front) + {s[|s| - 1]};
        front + [s[|s| - 1]]
  }

  /** Deduplicating a prefix gives a prefix of the deduplication: together
      with `Dedup`'s contract this fixes the order as that of first
      occurrences. */
  lemma {:induction false} DedupPrefix<T>(s: seq<T>, n: nat)
    requires n <= |s|
    ensures Dedup(s[..n]) <= Dedup(s)
    decreases |s|
  {
    if n < |s| {
      var front := s[..|s| - 1];
      assert front[..n] == s[..n];
      DedupPrefix(front, n);
      assert Dedup(front) <= Dedup(s);
    } else {
      assert s[..n] == s;
    }
  }

  /** The elements of a non-empty sequence are its head and those of its tail. */
  lemma ElemsCons<T>(s: seq<T>)
    requires |s| > 0
    ensures Elems(s) == {s[0]} + Elems(s[1..])
  {
    assert s == [s[0]] + s[1..];
  }

  /** Prefixing a new element keeps a sequence duplicate-free. */
  lemma DistinctCons<T>(x: T, t: seq<T>)
    ensures Distinct(t) && x !in Elems(t) ==> Distinct([x] + t)
  {
    var r := [x] + t;
    forall i, j | 0 <= i < j < |r| && Distinct(t) && x !in Elems(t)
      ensures r[i] != r[j]
    {
      if i > 0 {
        assert r[i] == t[i - 1] && r[j] == t[j - 1];
      } else {
        assert r[j] == t[j - 1] && t[j - 1] in Elems(t);
      }
    }
  }

  /** A duplicate-free sequence is its own deduplication. */
  lemma {:induction false} DedupOfDistinct<T>(s: seq<T>)
    requires Distinct(s)
    ensures Dedup(s) == s
  {
    if |s| > 0 {
      var front := s[..|s| - 1];
      assert Distinct(front);
      DedupOfDistinct(front);
      assert s[|s| - 1] !in front;
      assert front + [s[|s| - 1]] == s;
    }
  }

  /** A duplicate-free sequence has as many elements as its element set. */
  lemma {:induction false} DistinctCard<T>(s: seq<T>)
    requires Distinct(s)
    ensures |Elems(s)| == |s|
  {
    if |s| > 0 {
      var rest := s[1..];
      assert Distinct(rest);
      DistinctCard(rest);
      ElemsCons(s);
      assert s[0] !in Elems(rest);
    }
  }
}

=== FILE: single_file_tweeter.dfy ===
/** agp-tweeter.kt: the original single-file checker. The seen versions come
    from a file, the fetched ones from the `versions` attribute of the Maven
    group index, and a message template is tweeted for each new version. */
module SingleFileTweeter {
  import opened Wrappers
  import opened Seqs
  import opened Text
  import opened Tweets

  /** Stands for the version in the configured message. */
  const Placeholder := "__VERSION__"

  /** The version list in `fetchVersions`: the attribute split on commas. */
  function FetchVersions(versionsAttribute: string): (versions: seq<string>)
    ensures |versions| >= 1
    ensures forall i :: 0 <= i < |versions| ==> ',' !in versions[i]
    ensures Join(versions, ',') == versionsAttribute
  {
    JoinSplit(versionsAttribute, ',');
    Split(versionsAttribute, ',')
  }

  /** `config.message.replace(placeholder, version)` for each version. */
  function Messages(template: string, versions: seq<string>): (msgs: seq<string>)
    ensures |msgs| == |versions|
  {
    seq(|versions|, i requires 0 <= i < |versions| => ReplaceAll(template, Placeholder, versions[i]))
  }

  /** What one `check` does: the exception that escaped from tweeting, if
      any, the tweets posted in order, and what was written to the db file. */
  datatype CheckRun = CheckRun(thrownAt: Option<string>, tweets: seq<string>, written: Option<set<string>>)

  /** `check`. `dbFile` holds the lines of the db file, `None` if it does not
      exist; posting throws for the messages in `refused`. */
  function Check(template: string, dbFile: Option<set<string>>, versionsAttribute: string,
                 refused: set<string>): (r: CheckRun)
    ensures var newVersions := Without(FetchVersions(versionsAttribute), dbFile.GetOr({}));
            && (|newVersions| == 0 <==> Elems(FetchVersions(versionsAttribute)) <= dbFile.GetOr({}))
            && (|newVersions| == 0 ==> r == CheckRun(None, [], None))
            && r.tweets <= Messages(template, newVersions)
            && (r.thrownAt.None? <==> forall i :: 0 <= i < |newVersions| ==> Messages(template, newVersions)[i] !in refused)
            && (r.thrownAt.Some? ==> r.thrownAt.value in refused && r.tweets + [r.thrownAt.value] <= Messages(template, newVersions))
            && (r.thrownAt.None? ==> r.tweets == Messages(template, newVersions))
            && (r.written.Some? <==> r.thrownAt.None? && |newVersions| > 0)
            && (r.written.Some? ==> r.written.value == dbFile.GetOr({}) + Elems(FetchVersions(versionsAttribute)))
  {
    var seen := dbFile.GetOr({});
    var versions := FetchVersions(versionsAttribute);
    var newVersions := Without(versions, seen);
    if |newVersions| == 0 then
      assert Elems(newVersions) == {};
      CheckRun(None, [], None)
    else
      assert newVersions[0] in Elems(newVersions);
      var d := Deliver(Messages(template, newVersions), refused);
      if d.thrownAt.Some? then CheckRun(d.thrownAt, d.sent, None)
      else CheckRun(None, d.sent, Some(seen + Elems(newVersions)))
  }

  /** With no db file every fetched version is new. */
  lemma MissingDbAllNew(versions: seq<string>)
    ensures Without(versions, {}) == versions
  {
  }

  /** Once the db file has been written, the next check with the same
      fetched versions tweets nothing and writes nothing. */
  lemma QuietAfterWrite(template: string, dbFile: Option<set<string>>, versionsAttribute: string,
                        refused: set<string>, refusedLater: set<string>)
    requires Check(template, dbFile, versionsAttribute, refused).written.Some?
    ensures var w := Check(template, dbFile, versionsAttribute, refused).written;
            Check(template, w, versionsAttribute, refusedLater) == CheckRun(None, [], None)
  {
  }

  /** With a template holding the placeholder once, each tweet is the
      template with the version in its place. */
  lemma TweetsFillTemplate(before: string, after: string, dbFile: Option<set<string>>,
                           versionsAttribute: string, refused: set<string>)
    requires !Occurs(before + Placeholder[..|Placeholder| - 1], Placeholder)
    requires !Occurs(after, Placeholder)
    ensures var r := Check(before + Placeholder + after, dbFile, versionsAttribute, refused);
            var newVersions := Without(FetchVersions(versionsAttribute), dbFile.GetOr({}));
            forall i :: 0 <= i < |r.tweets| ==> r.tweets[i] == before + newVersions[i] + after
  {
    var newVersions := Without(FetchVersions(versionsAttribute), dbFile.GetOr({}));
    forall i | 0 <= i < |newVersions| {
      ReplaceSingle(before, Placeholder, after, newVersions[i]);
    }
  }
}

=== FILE: text.dfy ===
/** Kotlin string operations the core relies on: `split`, `joinToString`
    and `replace`, on strings as sequences of characters. */
module Text {

  /** Kotlin's `s.split(sep)`: every separator splits, empty pieces are kept,
      and a string without separator yields itself as the one piece. */
  function Split(s: string, sep: char): (parts: seq<string>)
    ensures |parts| >= 1
    ensures forall i :: 0 <= i < |parts| ==> sep !in parts[i]
  {
    if |s| == 0 then [""]
    else
      var rest := Split(s[1..], sep);
      if s[0] == sep then [""] + rest
      else [[s[0]] + rest[0]] + rest[1..]
  }

  /** Kotlin's `parts.joinToString(separator = sep)`. */
  function Join(parts: seq<string>, sep: char): string {
    if |parts| == 0 then ""
    else if |parts| == 1 then parts[0]
    else parts[0] + [sep] + Join(parts[1..], sep)
  }

  /** A piece without separator splits to itself. */
  lemma {:induction false} SplitPlain(s: string, sep: char)
    requires sep !in s
    ensures Split(s, sep) == [s]
  {
    if |s| > 0 {
      SplitPlain(s[1..], sep);
      assert [s[0]] + s[1..] == s;
    }
  }

  /** A piece followed by a separator splits off as the first part. */
  lemma {:induction false} SplitAtSep(x: string, sep: char, y: string)
    requires sep !in x
    ensures Split(x + [sep] + y, sep) == [x] + Split(y, sep)
  {
    var s := x + [sep] + y;
    if |x| > 0 {
      assert s[1..] == x[1..] + [sep] + y;
      SplitAtSep(x[1..], sep, y);
      assert [x[0]] + x[1..] == x;
    } else {
      assert s[1..] == y;
    }
  }

  /** Splitting the joined pieces gives the pieces back, provided there is at
      least one and none contains the separator. */
  lemma {:induction false} SplitJoin(parts: seq<string>, sep: char)
    requires |parts| >= 1
    requires forall i :: 0 <= i < |parts| ==> sep !in parts[i]
    ensures Split(Join(parts, sep), sep) == parts
  {
    if |parts| == 1 {
      SplitPlain(parts[0], sep);
    } else {
      SplitJoin(parts[1..], sep);
      SplitAtSep(parts[0], sep, Join(parts[1..], sep));
      assert [parts[0]] + parts[1..] == parts;
    }
  }

  /** Joining the pieces of a split gives the original string. */
  lemma {:induction false} JoinSplit(s: string, sep: char)
    ensures Join(Split(s, sep), sep) == s
  {
    if |s| > 0 {
      JoinSplit(s[1..], sep);
      var rest := Split(s[1..], sep);
      if s[0] != sep && |rest| > 1 {
        assert [[s[0]] + rest[0]] + rest[1..] == [[s[0]] + rest[0]] + rest[1..];
        assert Join(rest, sep) == rest[0] + [sep] + Join(rest[1..], sep);
        assert ([[s[0]] + rest[0]] + rest[1..])[1..] == rest[1..];
      } else if s[0] == sep {
        assert ([""] + rest)[1..] == rest;
      }
      assert [s[0]] + s[1..] == s;
    }
  }

  /** `pat` occurs in `s` starting at index `i`. */
  predicate OccursAt(s: string, pat: string, i: nat) {
    i + |pat| <= |s| && s[i..i + |pat|] == pat
  }

  /** `pat` occurs somewhere in `s`. */
  ghost predicate Occurs(s: string, pat: string) {
    exists i: nat :: OccursAt(s, pat, i)
  }

  /** Kotlin's `s.replace(pat, rep)`: scanning left to right, every
      occurrence of `pat` that does not overlap an earlier replaced one is
      replaced by `rep`. */
  function ReplaceAll(s: string, pat: string, rep: string): string
    requires |pat| > 0
    decreases |s|
  {
    if |s| < |pat| then s
    else if s[..|pat|] == pat then rep + ReplaceAll(s[|pat|..], pat, rep)
    else [s[0]] + ReplaceAll(s[1..], pat, rep)
  }

  /** The number of occurrences `ReplaceAll` replaces. */
  function Replacements(s: string, pat: string): nat
    requires |pat| > 0
    decreases |s|
  {
    if |s| < |pat| then 0
    else if s[..|pat|] == pat then 1 + Replacements(s[|pat|..], pat)
    else Replacements(s[1..], pat)
  }

  /** Distributes one more replacement's length change. */
  lemma ProductStep(n: int, d: int)
    ensures (1 + n) * d == d + n * d
  {
  }

  /** Each replacement changes the length by the difference of the two
      strings' lengths. */
  lemma {:induction false} ReplaceAllLength(s: string, pat: string, rep: string)
    requires |pat| > 0
    ensures |ReplaceAll(s, pat, rep)| == |s| + Replacements(s, pat) * (|rep| - |pat|)
    decreases |s|
  {
    if |s| >= |pat| {
      var d := |rep| - |pat|;
      if s[..|pat|] == pat {
        var rest := s[|pat|..];
        ReplaceAllLength(rest, pat, rep);
        var n := Replacements(rest, pat);
        assert |ReplaceAll(s, pat, rep)| == |rep| + |ReplaceAll(rest, pat, rep)|;
        assert Replacements(s, pat) == 1 + n;
        ProductStep(n, d);
      } else {
        ReplaceAllLength(s[1..], pat, rep);
        assert |ReplaceAll(s, pat, rep)| == 1 + |ReplaceAll(s[1..], pat, rep)|;
        assert Replacements(s, pat) == Replacements(s[1..], pat);
      }
    }
  }

  /** An occurrence not at the front is an occurrence in the tail. */
  lemma OccursInTail(s: string, pat: string)
    requires |pat| > 0 && Occurs(s, pat) && !OccursAt(s, pat, 0)
    ensures Occurs(s[1..], pat)
  {
    var i: nat :| OccursAt(s, pat, i);
    assert i > 0;
    assert s[1..][i - 1..i - 1 + |pat|] == s[i..i + |pat|];
    assert OccursAt(s[1..], pat, i - 1);
  }

  /** Replacements happen exactly when the pattern occurs. */
  lemma {:induction false} ReplacementsIffOccurs(s: string, pat: string)
    requires |pat| > 0
    ensures Replacements(s, pat) > 0 <==> Occurs(s, pat)
    decreases |s|
  {
    if |s| < |pat| {
    } else if s[..|pat|] == pat {
      assert OccursAt(s, pat, 0);
    } else {
      ReplacementsIffOccurs(s[1..], pat);
      if Occurs(s, pat) {
        OccursInTail(s, pat);
      }
      if Occurs(s[1..], pat) {
        var i: nat :| OccursAt(s[1..], pat, i);
        assert s[i + 1..i + 1 + |pat|] == s[1..][i..i + |pat|];
        assert OccursAt(s, pat, i + 1);
      }
    }
  }

  /** An occurrence in the tail is an occurrence one position further on. */
  lemma OccursShift(s: string, pat: string, i: nat)
    requires |s| > 0 && OccursAt(s[1..], pat, i)
    ensures OccursAt(s, pat, i + 1)
  {
    assert s[i + 1..i + 1 + |pat|] == s[1..][i..i + |pat|];
  }

  /** Without an occurrence, replacing leaves the string as it is. */
  lemma {:induction false} ReplaceAllAbsent(s: string, pat: string, rep: string)
    requires |pat| > 0 && !Occurs(s, pat)
    ensures ReplaceAll(s, pat, rep) == s
    decreases |s|
  {
    if |s| >= |pat| {
      assert !OccursAt(s, pat, 0);
      if Occurs(s[1..], pat) {
        var i: nat :| OccursAt(s[1..], pat, i);
        OccursShift(s, pat, i);
      }
      ReplaceAllAbsent(s[1..], pat, rep);
      assert [s[0]] + s[1..] == s;
    }
  }

  /** Replacing the pattern by itself leaves the string as it is. */
  lemma {:induction false} ReplaceAllSelf(s: string, pat: string)
    requires |pat| > 0
    ensures ReplaceAll(s, pat, pat) == s
    decreases |s|
  {
    if |s| >= |pat| {
      if s[..|pat|] == pat {
        ReplaceAllSelf(s[|pat|..], pat);
        assert pat + s[|pat|..] == s;
      } else {
        ReplaceAllSelf(s[1..], pat);
        assert [s[0]] + s[1..] == s;
      }
    }
  }

  /** A replacement of the same length as the pattern but different from it
      changes every string in which the pattern occurs. */
  lemma {:induction false} ReplaceAllSameLengthChanges(s: string, pat: string, rep: string)
    requires |pat| > 0 && |rep| == |pat| && rep != pat && Occurs(s, pat)
    ensures ReplaceAll(s, pat, rep) != s
    decreases |s|
  {
    var i: nat :| OccursAt(s, pat, i);
    if s[..|pat|] == pat {
      assert ReplaceAll(s, pat, rep)[..|pat|] == rep;
    } else {
      OccursInTail(s, pat);
      ReplaceAllSameLengthChanges(s[1..], pat, rep);
      assert ReplaceAll(s, pat, rep)[1..] == ReplaceAll(s[1..], pat, rep);
    }
  }

  /** Replacing changes the string exactly when the pattern occurs and the
      replacement differs from it. */
  lemma {:induction false} ReplaceAllUnchangedIff(s: string, pat: string, rep: string)
    requires |pat| > 0
    ensures ReplaceAll(s, pat, rep) == s <==> rep == pat || !Occurs(s, pat)
  {
    if rep == pat {
      ReplaceAllSelf(s, pat);
    } else if !Occurs(s, pat) {
      ReplaceAllAbsent(s, pat, rep);
    } else if |rep| == |pat| {
      ReplaceAllSameLengthChanges(s, pat, rep);
    } else {
      ReplacementsIffOccurs(s, pat);
      ReplaceAllLength(s, pat, rep);
      ProductNonZero(Replacements(s, pat), |rep| - |pat|);
    }
  }

  /** A product of non-zero factors is non-zero. */
  lemma ProductNonZero(n: nat, d: int)
    requires n > 0 && d != 0
    ensures n * d != 0
  {
    if d > 0 { assert n * d >= d; } else { assert n * d <= d; }
  }

  /** A template holding the pattern once, with no other occurrence of it,
      has that occurrence replaced: `a` followed by all but the last character
      of the pattern holds no occurrence (so none starts inside `a`), and
      neither does `b`. */
  lemma {:induction false} ReplaceSingle(a: string, pat: string, b: string, rep: string)
    requires |pat| > 0
    requires !Occurs(a + pat[..|pat| - 1], pat)
    requires !Occurs(b, pat)
    ensures ReplaceAll(a + pat + b, pat, rep) == a + rep + b
    decreases |a|
  {
    var s := a + pat + b;
    var head := a + pat[..|pat| - 1];
    if |a| == 0 {
      assert s == pat + b && s[..|pat|] == pat && s[|pat|..] == b;
      ReplaceAllAbsent(b, pat, rep);
    } else {
      assert s[..|pat|] == head[..|pat|];
      assert !OccursAt(head, pat, 0);
      assert s[1..] == a[1..] + pat + b;
      assert head[1..] == a[1..] + pat[..|pat| - 1];
      if Occurs(head[1..], pat) {
        var i: nat :| OccursAt(head[1..], pat, i);
        OccursShift(head, pat, i);
      }
      ReplaceSingle(a[1..], pat, b, rep);
      assert [a[0]] + a[1..] == a;
    }
  }
}

=== FILE: tweets.dfy ===
/** Handing messages to the tweet transport one after another. Posting is
    modelled by the set of messages for which the transport throws; the first
    such message aborts the loop, and the exception propagates. */
module Tweets {
  import opened Wrappers

  /** The messages posted, in order, and the message whose posting threw. */
  datatype Delivery = Delivery(sent: seq<string>, thrownAt: Option<string>)

  /** `messages.forEach { tweet(it) }` with a transport that throws for the
      messages in `refused`. */
  function Deliver(messages: seq<string>, refused: set<string>): (d: Delivery)
    ensures d.thrownAt.None? <==> forall i :: 0 <= i < |messages| ==> messages[i] !in refused
    ensures d.thrownAt.None? ==> d.sent == messages
    ensures d.thrownAt.Some? ==> d.thrownAt.value in refused && d.sent + [d.thrownAt.value] <= messages
    ensures forall i :: 0 <= i < |d.sent| ==> d.sent[i] !in refused
  {
    if |messages| == 0 then Delivery([], None)
    else if messages[0] in refused then Delivery([], Some(messages[0]))
    else
      var rest := Deliver(messages[1..], refused);
      assert messages == [messages[0]] + messages[1..];
      Delivery([messages[0]] + rest.sent, rest.thrownAt)
  }
}

=== FILE: wrappers.dfy ===
/** The optional value used wherever the source works with a nullable result. */
module Wrappers {

  /** `None` plays the role of Kotlin's `null`. */
  datatype Option<+T> = None | Some(value: T) {

    /** The value, or `default` when absent: Kotlin's elvis operator `?:`. */
    function GetOr(default: T): T {
      match this
      case Some(v) => v
      case None => default
    }
  }
}
